=== FILE: README.md ===
# Student record layer — a Dafny model

This project models the record layer of a small desktop student-management
application: the `Student` record (four string fields `name`, `roll`, `grade`,
`email`) with its display and file renderings, and the `StudentManager`, which
keeps an insertion-ordered list of records, mirrors it to the backing file
`students.txt` after every add or remove, and loads that file when it is created.

Everything is pure. The backing file is a value: `Option<string>` holding the whole
text of the file, where `None` means that the file does not exist. Saving and loading
are functions over that text, so the manager is a value
`Manager(students: seq<Student>, file: Option<string>)`. Each mutating operation
returns the new manager. `SearchStudent` and `AllStudents` return only a value, so
neither can change the list or the file.

Modules, one per concept:

- `Wrappers` (wrappers.dfy): `Option`, standing for the source's nullable references.
- `Seqs` (seqs.dfy): `FindFirst`, the left-to-right scan shared by string splitting,
  line reading and roll lookup.
- `JavaStrings` (java_strings.dfy): `String.split` on one character, including Java's
  removal of trailing empty strings and the rule that a string without the separator
  splits into itself. Also `equalsIgnoreCase`, with ASCII case folding.
- `TextFile` (text_file.dfy): the text `println` leaves in the file, with either
  `"\n"` or `"\r\n"` as the platform line separator. Also the lines `Scanner.nextLine`
  returns; its terminators are `"\r\n"`, `\n`, `\r`, U+2028, U+2029 and U+0085.
- `StudentRecord` (student.dfy): `Student`, `toFileString`, `fromFileString`, `toString`.
  `getRoll` is the datatype field `roll`.
- `StudentStore` (student_store.dfy): the manager's operations, plus the text of the
  "Display All" view.
- `Scenarios` (scenarios.dfy): concrete runs, stated as lemmas.

Two predicates carry the conditions under which the file format is faithful:

- `Serialisable(s)`: no field contains a comma, and `email` is non-empty. Java's
  `split` drops trailing empty strings, so an empty last field is lost.
- `Storable(s)`: `Serialisable(s)`, and no field contains a line break.

A write of the backing file is the parameter `WriteOutcome`:

- `Written(sep)`: the file was rewritten, using the platform separator `sep`.
- `WriteFailed`: the `IOException` was logged and swallowed. The in-memory change
  stands and the file keeps its old content.

Three facts about the code shape the model:

- `roll` is the lookup key, but `addStudent` never checks it, so duplicate rolls
  are admitted.
- A line parses when `split` yields four pieces. That includes lines with trailing
  commas, such as `a,b,c,d,,`.
- A record survives the file only when its fields are comma-free and its `email`
  is non-empty.

## Model

| member | source | states |
|---|---|---|
| `JavaStrings.DropTrailingEmpty` | StudentManagementSystem/StudentManagementGUI.java:31 | the result is a prefix of the pieces, ends in a non-empty piece (or is empty), and every piece cut off is empty |
| `JavaStrings.Split` | StudentManagementSystem/StudentManagementGUI.java:31 | no piece of a split contains the separator |
| `JavaStrings.SplitNoSeparator` | StudentManagementSystem/StudentManagementGUI.java:31 | a string without the separator splits into itself, so the empty string gives one empty piece |
| `JavaStrings.SplitOfJoin` | StudentManagementSystem/StudentManagementGUI.java:31 | one or more separator-free pieces, the last non-empty, joined and followed by any number of separators, split back into exactly those pieces (so `a,,` gives `[a]`) |
| `JavaStrings.SplitShape` | StudentManagementSystem/StudentManagementGUI.java:31 | conversely, every input is its pieces joined plus some trailing separators (a string of separators only splits into nothing), and when the separator occurs the last piece is non-empty |
| `JavaStrings.EqualsIgnoreCase` | StudentManagementSystem/StudentManagementGUI.java:53 | two strings are equal ignoring case exactly when they have the same length and every pair of characters is equal, equal after upper-casing, or equal after upper-casing then lower-casing (Java's per-character rule, ASCII letters only) |
| `JavaStrings.EqualsIgnoreCaseIsEquivalence` | StudentManagementSystem/StudentManagementGUI.java:53 | matching rolls ignoring case is reflexive, symmetric and transitive |
| `JavaStrings.FoldCharMatches` | StudentManagementSystem/StudentManagementGUI.java:53 | two characters match ignoring case exactly when they fold to the same character |
| `JavaStrings.JoinSplitAll` | StudentManagementSystem/StudentManagementGUI.java:31 | splitting loses no character: rejoining the raw pieces gives the input |
| `StudentRecord.ToFileString` | StudentManagementSystem/StudentManagementGUI.java:26-28 | the stored line is name, roll, grade, email in that order with one comma between neighbours; its length is the fields' total plus three |
| `StudentRecord.FromFileString` | StudentManagementSystem/StudentManagementGUI.java:30-35 | total (a bad line gives None, never an error), and every record it returns is serialisable |
| `StudentRecord.ParseExactly` | StudentManagementSystem/StudentManagementGUI.java:30-35 | a line parses to record s exactly when s is serialisable and the line is s's stored line followed by zero or more commas |
| `StudentRecord.RoundTrip` | StudentManagementSystem/StudentManagementGUI.java:26-35 | parsing a record's stored line gives the record back if and only if no field holds a comma and the email is non-empty |
| `StudentRecord.Render` | StudentManagementSystem/StudentManagementGUI.java:22-24 | the display text of a record whose fields hold no line break is a single line |
| `TextFile.ReadLines` | StudentManagementSystem/StudentManagementGUI.java:87-91 | the lines a Scanner hands back contain no line terminator, and there are at most as many as characters |
| `TextFile.ReadLinesLast` | StudentManagementSystem/StudentManagementGUI.java:88-89 | text with no terminator is read as one unterminated last line, or as no line when it is empty |
| `TextFile.ReadLinesBreak` | StudentManagementSystem/StudentManagementGUI.java:88-89 | a one-character terminator (newline, a carriage return not followed by a newline, U+2028, U+2029, U+0085) ends the line before it, blank lines included, and reading continues after it |
| `TextFile.ReadLinesCrLf` | StudentManagementSystem/StudentManagementGUI.java:88-89 | carriage return plus newline is a single terminator: it ends the line before it and yields no blank line |
| `TextFile.WriteLines` | StudentManagementSystem/StudentManagementGUI.java:74-76 | println-ing lines leaves text at least as long as the number of lines, empty exactly when there are no lines |
| `TextFile.ReadWriteLines` | StudentManagementSystem/StudentManagementGUI.java:73-80 | lines without line breaks, printed with println under either separator, are read back by nextLine as exactly those lines in order |
| `StudentStore.FileLines` | StudentManagementSystem/StudentManagementGUI.java:75-76 | a save writes one line per record, and each serialisable record's line parses back to that record |
| `StudentStore.LoadFileLines` | StudentManagementSystem/StudentManagementGUI.java:88-91 | loading the stored lines of serialisable records gives back exactly those records in order |
| `StudentStore.SaveText` | StudentManagementSystem/StudentManagementGUI.java:73-76 | the saved text reads back as the stored lines, one per record in list order, when every record is storable |
| `StudentStore.Persist` | StudentManagementSystem/StudentManagementGUI.java:73-80 | a failed write leaves the file as it was; a successful one leaves a file that loads to the saved list when every record is storable |
| `StudentStore.Load` | StudentManagementSystem/StudentManagementGUI.java:82-95 | a missing file loads to no records; otherwise at most one record per character of text, each one serialisable |
| `StudentStore.LoadLines` | StudentManagementSystem/StudentManagementGUI.java:88-91 | every loaded record comes from a line that parses to it, every parseable line's record is loaded, no more records than lines, all serialisable |
| `StudentStore.LoadLinesAppend` | StudentManagementSystem/StudentManagementGUI.java:88-91 | loading preserves file order: the records of two consecutive blocks of lines are the first block's followed by the second's |
| `StudentStore.Open` | StudentManagementSystem/StudentManagementGUI.java:82-86 | a missing file yields an empty list; every loaded record is serialisable |
| `StudentStore.AddStudent` | StudentManagementSystem/StudentManagementGUI.java:46-48 | the list grows by one, earlier records are unchanged, the new record is last (no roll check); the file is rewritten from the new list, or left as it was when the write fails |
| `StudentStore.SearchStudent` | StudentManagementSystem/StudentManagementGUI.java:62-67 | None exactly when no roll matches ignoring case; otherwise the record at the first matching position |
| `StudentStore.RemoveStudent` | StudentManagementSystem/StudentManagementGUI.java:51-60 | reports true exactly when some roll matches; then only the first matching record is removed, the rest keep their order and the file is saved; otherwise the manager, file included, is unchanged |
| `StudentStore.AllStudents` | StudentManagementSystem/StudentManagementGUI.java:69-71 | lists every record, and a search for a listed record's roll finds that record or one listed before it (duplicate rolls are admitted, so it may be the earlier one) |
| `StudentStore.DisplayAll` | StudentManagementSystem/StudentManagementGUI.java:211-222 | an empty list shows the notice "No students found."; a non-empty one starts with the first record's display line and a newline |
| `StudentStore.DisplayAllSingle` | StudentManagementSystem/StudentManagementGUI.java:217-219 | one record is shown as its display line followed by a newline |
| `StudentStore.DisplayAllAppend` | StudentManagementSystem/StudentManagementGUI.java:211-222 | the view of two non-empty lists one after the other is the first list's view followed by the second's |
| `StudentStore.RemoveSplitsAtFirstMatch` | StudentManagementSystem/StudentManagementGUI.java:51-60 | when some roll matches, remove succeeds and the old list is the new list with the first matching record put back at its position |
| `StudentStore.RemoveTakesSearched` | StudentManagementSystem/StudentManagementGUI.java:51-67 | remove succeeds exactly when search finds a record, and it takes out exactly that record |
| `StudentStore.AddThenSearch` | StudentManagementSystem/StudentManagementGUI.java:62-67 | after an add, search returns the earlier match if there was one, else the added record if its roll matches, else None |
| `StudentStore.RemoveUndoesAdd` | StudentManagementSystem/StudentManagementGUI.java:51-60 | removing the roll of a record just added, which no earlier record shared, succeeds and restores the previous list |
| `StudentStore.SaveThenLoad` | StudentManagementSystem/StudentManagementGUI.java:73-95 | loading the saved text of storable records gives back the same list in the same order, under either line separator |
| `StudentStore.AddKeepsSync` | StudentManagementSystem/StudentManagementGUI.java:46-48 | after an add whose save succeeds, loading the file gives the in-memory list, when all records are storable |
| `StudentStore.AddWriteFailedDiverges` | StudentManagementSystem/StudentManagementGUI.java:73-80 | when the save after an add fails, the file still loads to the old list, and memory and file disagree |
| `StudentStore.RemoveKeepsSync` | StudentManagementSystem/StudentManagementGUI.java:51-60 | remove keeps the file in step with the list when the save succeeds and all records are storable |
| `StudentStore.DisplayAllLines` | StudentManagementSystem/StudentManagementGUI.java:211-222 | when no field of any record holds a line break, the "Display All" text of a non-empty list reads back as one display line per record, in list order |
| `Scenarios.AddSearchRemoveScenario` | StudentManagementSystem/StudentManagementGUI.java:46-67 | starting with no file: adding Ann, searching "r1" finds her, removing "R1" succeeds and leaves an empty list and an empty file |
| `Scenarios.RemoveFromEmpty` | StudentManagementSystem/StudentManagementGUI.java:51-60 | remove on an empty list reports false and writes nothing |
| `Scenarios.TwoAddsInOrder` | StudentManagementSystem/StudentManagementGUI.java:46-48 | two adds list the records in the order they were added |
| `Scenarios.AnnLine` | StudentManagementSystem/StudentManagementGUI.java:26-28 | Ann's stored line is `Ann,R1,A+,ann@x.com` |
| `Scenarios.LoadDropsMalformed` | StudentManagementSystem/StudentManagementGUI.java:82-95 | a file with a well-formed line and the two-field line `Bob,R2` loads to the single well-formed record |
| `Scenarios.NonSerialisableRecordsDoNotSurvive` | StudentManagementSystem/StudentManagementGUI.java:26-35 | a record with an empty email parses back to nothing; one with a comma in its email does not come back unchanged |

## Left out

- The Swing window (lines 98–227): layout, buttons, dialogs and listeners. Only the
  text that `displayAll` builds is modelled. The form admits any record whose trimmed
  fields are non-empty, so it admits records that are not `Serialisable`; see
  `Scenarios.NonSerialisableRecordsDoNotSurvive`.
- Real file handles (`FileWriter`, `PrintWriter`, `Scanner`, `File.exists`): the file
  is an `Option<string>` of its text. The fixed name `students.txt` is implicit.
- Character sets: `FileWriter` encodes with the platform charset and `Scanner` decodes
  with it. Neither step is modelled, so `SaveThenLoad` assumes that charset can
  represent every character of every record. A character it cannot represent (`Ł`
  under windows-1252, say) is written as `?` and does not come back.
- Partial writes: `PrintWriter` swallows errors that happen after the file is opened.
  The model has only "rewritten" and "untouched" (`WriteOutcome`).
- Read errors while loading, and a file that vanishes between `exists` and opening,
  are not modelled; the whole text is read. The stack traces that are logged are
  output only.
- `equalsIgnoreCase` folds only ASCII letters here. Java folds every Unicode letter.
- Dafny's `char` is a Unicode scalar value, while Java's is a UTF-16 code unit. No
  modelled character (comma, line terminators, ASCII letters) depends on the
  difference.
- `String.split` goes through Java's regex machinery; only the single-comma pattern
  the code uses is modelled.
- `getAllStudents` returns the live `ArrayList`, so callers could change it; here
  `AllStudents` returns the current sequence value.

=== FILE: java_strings.dfy ===
/** The parts of java.lang.String the record layer relies on: split on a single
    character (with Java's removal of trailing empty strings) and equalsIgnoreCase. */
module JavaStrings {
  import opened Seqs

  /** `k` empty strings: the pieces Java's split discards at the end of its result. */
  function Empties(k: nat): seq<string>
  {
    seq(k, _ => "")
  }

  /** The separator written `k` times in a row. */
  function Repeat(c: char, k: nat): string
  {
    seq(k, _ => c)
  }

  /** The pieces joined with a single `sep` between neighbours. */
  function Join(parts: seq<string>, sep: char): string
    decreases |parts|
  {
    if |parts| == 0 then ""
    else if |parts| == 1 then parts[0]
    else parts[0] + [sep] + Join(parts[1..], sep)
  }

  /** The test for one particular character. */
  function Is(sep: char): char -> bool
  {
    c => c == sep
  }

  /** Every piece of `s` between occurrences of `sep`, empty pieces included:
      what String.split computes before it discards trailing empty strings. */
  function SplitAll(s: string, sep: char): (parts: seq<string>)
    ensures |parts| >= 1
    ensures forall k :: 0 <= k < |parts| ==> sep !in parts[k]
    decreases |s|
  {
    var i := FindFirst(s, Is(sep));
    if i == |s| then [s]
    else [s[..i]] + SplitAll(s[i + 1..], sep)
  }

  /** The result without its trailing empty strings. */
  function DropTrailingEmpty(parts: seq<string>): (r: seq<string>)
    ensures |r| <= |parts| && r == parts[..|r|]
    ensures |r| > 0 ==> r[|r| - 1] != ""
    ensures forall k :: |r| <= k < |parts| ==> parts[k] == ""
    decreases |parts|
  {
    if |parts| == 0 then []
    else if parts[|parts| - 1] == "" then DropTrailingEmpty(parts[..|parts| - 1])
    else parts
  }

  /** `s.split(String.valueOf(sep))`: when the separator does not occur the
      result is the whole string (so the empty string yields one empty piece);
      otherwise the pieces, trailing empty ones removed. */
  function Split(s: string, sep: char): (parts: seq<string>)
    ensures forall k :: 0 <= k < |parts| ==> sep !in parts[k]
  {
    if sep !in s then [s] else DropTrailingEmpty(SplitAll(s, sep))
  }

  /** Splitting then joining gives back the input: no character is lost. */
  lemma {:induction false} JoinSplitAll(s: string, sep: char)
    ensures Join(SplitAll(s, sep), sep) == s
    decreases |s|
  {
    var i := FindFirst(s, Is(sep));
    if i < |s| {
      var head, tail := s[..i], s[i + 1..];
      var rest := SplitAll(tail, sep);
      assert SplitAll(s, sep) == [head] + rest;
      JoinSplitAll(tail, sep);
      assert ([head] + rest)[1..] == rest;
      assert Join([head] + rest, sep) == head + [sep] + Join(rest, sep);
      assert s[i] == sep;
      assert s == head + [sep] + tail;
    } else {
      assert SplitAll(s, sep) == [s];
    }
  }

  /** A string without the separator is a single piece. */
  lemma SplitAllNoSeparator(s: string, sep: char)
    requires sep !in s
    ensures SplitAll(s, sep) == [s]
  {
    assert forall j :: 0 <= j < |s| ==> !Is(sep)(s[j]);
  }

  /** A separator-free prefix followed by the separator is the first piece. */
  lemma SplitAllCons(a: string, sep: char, b: string)
    requires sep !in a
    ensures SplitAll(a + [sep] + b, sep) == [a] + SplitAll(b, sep)
  {
    var s := a + [sep] + b;
    assert forall j :: 0 <= j < |a| ==> !Is(sep)(a[j]);
    FindFirstAt(a, sep, b, Is(sep));
    assert s[..|a|] == a;
    assert s[|a| + 1..] == b;
  }

  /** Joining separator-free pieces then splitting gives back exactly those pieces. */
  lemma {:induction false} SplitAllJoin(parts: seq<string>, sep: char)
    requires |parts| >= 1
    requires forall k :: 0 <= k < |parts| ==> sep !in parts[k]
    ensures SplitAll(Join(parts, sep), sep) == parts
    decreases |parts|
  {
    if |parts| == 1 {
      SplitAllNoSeparator(parts[0], sep);
    } else {
      SplitAllCons(parts[0], sep, Join(parts[1..], sep));
      SplitAllJoin(parts[1..], sep);
      assert parts == [parts[0]] + parts[1..];
    }
  }

  /** A join of at least two pieces contains the separator, right after the first piece. */
  lemma JoinHasSeparator(parts: seq<string>, sep: char)
    requires |parts| >= 2
    ensures |parts[0]| < |Join(parts, sep)| && Join(parts, sep)[|parts[0]|] == sep
  {
    assert Join(parts, sep) == parts[0] + [sep] + Join(parts[1..], sep);
  }

  /** Appending an empty piece appends one separator. */
  lemma {:induction false} JoinSnocEmpty(parts: seq<string>, sep: char)
    requires |parts| >= 1
    ensures Join(parts + [""], sep) == Join(parts, sep) + [sep]
    decreases |parts|
  {
    if |parts| == 1 {
      assert (parts + [""])[1..] == [""];
    } else {
      assert (parts + [""])[1..] == parts[1..] + [""];
      JoinSnocEmpty(parts[1..], sep);
    }
  }

  /** Trailing empty pieces are trailing separators in the joined text. */
  lemma {:induction false} JoinTrailingEmpties(parts: seq<string>, k: nat, sep: char)
    requires |parts| >= 1
    ensures Join(parts + Empties(k), sep) == Join(parts, sep) + Repeat(sep, k)
    decreases k
  {
    if k > 0 {
      var front := parts + Empties(k - 1);
      JoinTrailingEmpties(parts, k - 1, sep);
      assert parts + Empties(k) == front + [""];
      JoinSnocEmpty(front, sep);
      assert Repeat(sep, k) == Repeat(sep, k - 1) + [sep];
      calc {
        Join(parts + Empties(k), sep);
        Join(front, sep) + [sep];
        Join(parts, sep) + Repeat(sep, k - 1) + [sep];
        Join(parts, sep) + Repeat(sep, k);
      }
    } else {
      assert parts + Empties(k) == parts;
      assert Join(parts, sep) + Repeat(sep, k) == Join(parts, sep);
    }
  }

  /** Splitting separator-free pieces, the last one non-empty, joined and
      followed by any number of separators, yields exactly those pieces. */
  lemma SplitOfJoin(parts: seq<string>, k: nat, sep: char)
    requires |parts| >= 1
    requires forall j :: 0 <= j < |parts| ==> sep !in parts[j]
    requires parts[|parts| - 1] != ""
    ensures Split(Join(parts, sep) + Repeat(sep, k), sep) == parts
  {
    var all := parts + Empties(k);
    JoinTrailingEmpties(parts, k, sep);
    var s := Join(all, sep);
    if |parts| == 1 && k == 0 {
      assert all == parts;
      assert s == parts[0];
    } else {
      assert forall j :: 0 <= j < |all| ==> sep !in all[j] by {
        forall j | 0 <= j < |all| ensures sep !in all[j] {
          if j >= |parts| { assert all[j] == ""; }
        }
      }
      SplitAllJoin(all, sep);
      JoinHasSeparator(all, sep);
      assert sep in s;
      var r := DropTrailingEmpty(all);
      assert all[|parts| - 1] == parts[|parts| - 1];
      assert forall j :: |parts| <= j < |all| ==> all[j] == "";
      assert r == all[..|parts|] == parts;
    }
  }

  /** A string without the separator splits into itself; in particular the
      empty string splits into one empty piece. */
  lemma SplitNoSeparator(s: string, sep: char)
    requires sep !in s
    ensures Split(s, sep) == [s]
  {
  }

  /** `k + 1` empty pieces join to `k` separators. */
  lemma JoinEmpties(k: nat, sep: char)
    ensures Join(Empties(k + 1), sep) == Repeat(sep, k)
  {
    JoinTrailingEmpties([""], k, sep);
    assert Empties(k + 1) == [""] + Empties(k);
    assert Join([""], sep) == "";
  }

  /** Conversely, every split arises that way: when the separator occurs, the
      last piece is non-empty, and the input is always the pieces joined
      followed by some separators (a string of separators only splits into nothing). */
  lemma SplitShape(s: string, sep: char)
    ensures sep in s && |Split(s, sep)| > 0 ==> Split(s, sep)[|Split(s, sep)| - 1] != ""
    ensures exists k: nat :: s == Join(Split(s, sep), sep) + Repeat(sep, k)
  {
    var parts := Split(s, sep);
    if sep !in s {
      assert s == Join(parts, sep) + Repeat(sep, 0);
    } else {
      var all := SplitAll(s, sep);
      var k := |all| - |parts|;
      assert all == parts + Empties(k);
      JoinSplitAll(s, sep);
      if |parts| == 0 {
        assert all == Empties(k - 1 + 1);
        JoinEmpties(k - 1, sep);
        assert s == Join(parts, sep) + Repeat(sep, k - 1);
      } else {
        JoinTrailingEmpties(parts, k, sep);
      }
    }
  }

  /** Character.toUpperCase on ASCII letters; every other character kept. */
  function UpperChar(c: char): char
  {
    if 'a' <= c <= 'z' then (c as int - 'a' as int + 'A' as int) as char else c
  }

  /** Character.toLowerCase on ASCII letters; every other character kept. */
  function LowerChar(c: char): char
  {
    if 'A' <= c <= 'Z' then (c as int - 'A' as int + 'a' as int) as char else c
  }

  /** The per-character test of String.regionMatches with ignoreCase: equal, or
      equal after upper-casing, or equal after upper- then lower-casing. */
  predicate CharsMatchIgnoringCase(x: char, y: char)
  {
    || x == y
    || UpperChar(x) == UpperChar(y)
    || LowerChar(UpperChar(x)) == LowerChar(UpperChar(y))
  }

  /** The case-folding key: ASCII upper-case letters mapped to lower case. */
  function FoldChar(c: char): (f: char)
    ensures !('A' <= f <= 'Z')
    ensures CharsMatchIgnoringCase(c, f)
  {
    LowerChar(c)
  }

  /** Two characters have the same folding key exactly when Java's per-character test accepts them. */
  lemma FoldCharMatches(x: char, y: char)
    ensures FoldChar(x) == FoldChar(y) <==> CharsMatchIgnoringCase(x, y)
  {
    if CharsMatchIgnoringCase(x, y) && x != y {
      if UpperChar(x) != UpperChar(y) {
        assert LowerChar(UpperChar(x)) == LowerChar(UpperChar(y));
      }
    }
  }

  /** Every character case-folded: the result holds no ASCII upper-case letter,
      and each of its characters matches the original one ignoring case. */
  function FoldCase(s: string): (r: string)
    ensures |r| == |s|
    ensures forall i :: 0 <= i < |r| ==> !('A' <= r[i] <= 'Z')
    ensures forall i :: 0 <= i < |s| ==> CharsMatchIgnoringCase(s[i], r[i])
  {
    seq(|s|, i requires 0 <= i < |s| => FoldChar(s[i]))
  }

  /** `a.equalsIgnoreCase(b)`, with case mapping restricted to ASCII letters:
      same length, and every pair of characters passes Java's per-character test. */
  predicate EqualsIgnoreCase(a: string, b: string)
    ensures EqualsIgnoreCase(a, b)
        <==> |a| == |b| && forall i :: 0 <= i < |a| ==> CharsMatchIgnoringCase(a[i], b[i])
  {
    assert forall i :: 0 <= i < |a| && i < |b| ==>
      (FoldChar(a[i]) == FoldChar(b[i]) <==> CharsMatchIgnoringCase(a[i], b[i])) by {
      forall i | 0 <= i < |a| && i < |b| {
        FoldCharMatches(a[i], b[i]);
      }
    }
    assert |a| == |b| && (forall i :: 0 <= i < |a| ==> FoldChar(a[i]) == FoldChar(b[i]))
       ==> FoldCase(a) == FoldCase(b);
    FoldCase(a) == FoldCase(b)
  }

  /** Ignoring case is an equivalence, so "the record whose roll matches" is well defined. */
  lemma EqualsIgnoreCaseIsEquivalence(a: string, b: string, c: string)
    ensures EqualsIgnoreCase(a, a)
    ensures EqualsIgnoreCase(a, b) ==> EqualsIgnoreCase(b, a)
    ensures EqualsIgnoreCase(a, b) && EqualsIgnoreCase(b, c) ==> EqualsIgnoreCase(a, c)
  {
  }
}

=== FILE: scenarios.dfy ===
/** Concrete runs of the record manager, stated as lemmas about the model. */
module Scenarios {
  import opened Wrappers
  import opened JavaStrings
  import opened TextFile
  import opened StudentRecord
  import opened StudentStore

  const Ann := Student("Ann", "R1", "A+", "ann@x.com")

  /** Starting without a file: add Ann, find her under "r1", remove "R1";
      the list is empty again and the file holds no line. */
  lemma AddSearchRemoveScenario(sep: LineSeparator)
    ensures Open(None).students == []
    ensures SearchStudent(AddStudent(Open(None), Ann, Written(sep)), "r1") == Some(Ann)
    ensures RemoveStudent(AddStudent(Open(None), Ann, Written(sep)), "R1", Written(sep)).removed
    ensures RemoveStudent(AddStudent(Open(None), Ann, Written(sep)), "R1", Written(sep)).manager
         == Manager([], Some(""))
  {
    var m := AddStudent(Open(None), Ann, Written(sep));
    assert m.students == [Ann];
    assert FoldCase("R1") == "r1" == FoldCase("r1");
    assert Matches(Ann, "r1") && Matches(Ann, "R1");
    var r := RemoveStudent(m, "R1", Written(sep));
    assert r.manager.students == [];
    assert FileLines([]) == [];
  }

  /** Removing from an empty list reports false and writes nothing. */
  lemma RemoveFromEmpty(file: Option<string>, roll: string, w: WriteOutcome)
    ensures RemoveStudent(Manager([], file), roll, w) == Removal(false, Manager([], file))
  {
  }

  /** Two adds list the records in the order they were added. */
  lemma TwoAddsInOrder(r1: Student, r2: Student, w1: WriteOutcome, w2: WriteOutcome)
    ensures AllStudents(AddStudent(AddStudent(Open(None), r1, w1), r2, w2)) == [r1, r2]
  {
  }

  /** A line with only two fields. */
  const ShortLine := "Bob,R2"

  /** The scenario file reads as Ann's stored line and the short line. */
  lemma ScenarioFileLines()
    ensures ReadLines(ToFileString(Ann) + "\n" + ShortLine + "\n") == [ToFileString(Ann), ShortLine]
  {
    var good := ToFileString(Ann);
    assert Fields(Ann) == ["Ann", "R1", "A+", "ann@x.com"];
    assert Storable(Ann);
    FileLineIsOneLine(Ann);
    assert NoLineBreak(ShortLine);
    var tail := ShortLine + "\n";
    assert tail == ShortLine + Terminator(LF) + "";
    assert good + "\n" + ShortLine + "\n" == good + Terminator(LF) + tail;
    ReadLinesCons(good, LF, tail);
    ReadLinesCons(ShortLine, LF, "");
  }

  /** The two-field line "Bob,R2" does not parse. */
  lemma ScenarioShortLine()
    ensures FromFileString(ShortLine) == None
  {
    assert ShortLine == Join(["Bob", "R2"], Comma) + Repeat(Comma, 0);
    SplitOfJoin(["Bob", "R2"], 0, Comma);
  }

  /** Ann's stored line loads to Ann. */
  lemma ScenarioLoadGood()
    ensures LoadLines([ToFileString(Ann)]) == [Ann]
  {
    RoundTrip(Ann);
  }

  /** The short line loads to no record. */
  lemma ScenarioLoadShort()
    ensures LoadLines([ShortLine]) == []
  {
    ScenarioShortLine();
  }

  /** Ann's stored line is the comma-joined text of her fields. */
  lemma AnnLine()
    ensures ToFileString(Ann) == "Ann,R1,A+,ann@x.com"
  {
  }

  /** A file holding Ann's line and the two-field line "Bob,R2": loading keeps
      only Ann's record. */
  lemma LoadDropsMalformed()
    ensures Load(Some(ToFileString(Ann) + "\n" + ShortLine + "\n")) == [Ann]
  {
    var good := ToFileString(Ann);
    ScenarioFileLines();
    ScenarioLoadGood();
    ScenarioLoadShort();
    LoadLinesAppend([good], [ShortLine]);
    assert [good] + [ShortLine] == [good, ShortLine];
  }

  /** A record with an empty email is lost on reload; one with a comma in a field comes back altered. */
  lemma NonSerialisableRecordsDoNotSurvive()
    ensures FromFileString(ToFileString(Student("Ann", "R1", "A+", ""))) == None
    ensures FromFileString(ToFileString(Student("Ann", "R1", "A+", "a,b"))) != Some(Student("Ann", "R1", "A+", "a,b"))
  {
    var s := Student("Ann", "R1", "A+", "");
    RoundTrip(s);
    assert Split(ToFileString(s), Comma) == ["Ann", "R1", "A+"] by {
      assert ToFileString(s) == Join(["Ann", "R1", "A+"], Comma) + Repeat(Comma, 1);
      SplitOfJoin(["Ann", "R1", "A+"], 1, Comma);
    }
    var t := Student("Ann", "R1", "A+", "a,b");
    assert Fields(t)[3] == "a,b" && Comma in "a,b";
    RoundTrip(t);
  }
}

=== FILE: seqs.dfy ===
/** Linear left-to-right search, shared by string scanning and record lookup. */
module Seqs {

  /** Index of the first element of `s` satisfying `p`, or `|s|` when none does. */
  function FindFirst<T>(s: seq<T>, p: T -> bool): (i: nat)
    ensures i <= |s|
    ensures i < |s| ==> p(s[i])
    ensures forall j :: 0 <= j < i ==> !p(s[j])
    decreases |s|
  {
    if |s| == 0 then 0
    else if p(s[0]) then 0
    else 1 + FindFirst(s[1..], p)
  }

  /** The search stops at the first hit: an element satisfying `p` behind a prefix with no hit. */
  lemma FindFirstAt<T>(a: seq<T>, x: T, b: seq<T>, p: T -> bool)
    requires forall j :: 0 <= j < |a| ==> !p(a[j])
    requires p(x)
    ensures FindFirst(a + [x] + b, p) == |a|
  {
    var s := a + [x] + b;
    assert forall j :: 0 <= j < |a| ==> s[j] == a[j];
    assert s[|a|] == x;
  }
}

=== FILE: student.dfy ===
/** One student record and its two renderings: the display line and the
    comma-separated line stored in the backing file. */
module StudentRecord {
  import opened Wrappers
  import opened JavaStrings
  import opened TextFile

  /** The four string fields of a record, immutable once built; `roll` is the lookup key. */
  datatype Student = Student(name: string, roll: string, grade: string, email: string)

  /** The field separator of the file format. */
  const Comma: char := ','

  /** The fields in file order. */
  function Fields(s: Student): seq<string>
  {
    [s.name, s.roll, s.grade, s.email]
  }

  /** A record that the file format reproduces: no field holds the separator,
      and the last field is non-empty, since split discards trailing empty strings. */
  predicate Serialisable(s: Student)
  {
    && (forall k :: 0 <= k < 4 ==> Comma !in Fields(s)[k])
    && s.email != ""
  }

  /** A record whose stored line is also one line of the file. */
  predicate Storable(s: Student)
  {
    && Serialisable(s)
    && forall k :: 0 <= k < 4 ==> NoLineBreak(Fields(s)[k])
  }

  /** The stored line: the four fields in file order, single commas between them. */
  function ToFileString(s: Student): (line: string)
    ensures line == Join(Fields(s), Comma)
    ensures |line| == |s.name| + |s.roll| + |s.grade| + |s.email| + 3
  {
    assert Fields(s)[1..][1..] == [s.grade, s.email];
    assert Fields(s)[1..] == [s.roll, s.grade, s.email];
    assert Join([s.grade, s.email], Comma) == s.grade + [Comma] + s.email;
    assert Join([s.roll, s.grade, s.email], Comma) == s.roll + [Comma] + s.grade + [Comma] + s.email;
    s.name + [Comma] + s.roll + [Comma] + s.grade + [Comma] + s.email
  }

  /** Parses a stored line; a line that does not split into exactly four pieces
      gives None, never an error. Whatever it accepts is reproducible. */
  function FromFileString(line: string): (r: Option<Student>)
    ensures r.Some? ==> Serialisable(r.value)
  {
    var parts := Split(line, Comma);
    if |parts| == 4 then
      SplitShape(line, Comma);
      Some(Student(parts[0], parts[1], parts[2], parts[3]))
    else None
  }

  /** The display form used by the record view; a record whose fields hold no
      line break is displayed on a single line. */
  function Render(s: Student): (text: string)
    ensures (forall k :: 0 <= k < 4 ==> NoLineBreak(Fields(s)[k])) ==> NoLineBreak(text)
  {
    assert Fields(s)[0] == s.name && Fields(s)[1] == s.roll;
    assert Fields(s)[2] == s.grade && Fields(s)[3] == s.email;
    NoLineBreakAppend("Name: ", s.name);
    NoLineBreakAppend("Name: " + s.name, ", Roll: ");
    NoLineBreakAppend("Name: " + s.name + ", Roll: ", s.roll);
    NoLineBreakAppend("Name: " + s.name + ", Roll: " + s.roll, ", Grade: ");
    NoLineBreakAppend("Name: " + s.name + ", Roll: " + s.roll + ", Grade: ", s.grade);
    NoLineBreakAppend("Name: " + s.name + ", Roll: " + s.roll + ", Grade: " + s.grade, ", Email: ");
    NoLineBreakAppend("Name: " + s.name + ", Roll: " + s.roll + ", Grade: " + s.grade + ", Email: ", s.email);
    "Name: " + s.name + ", Roll: " + s.roll + ", Grade: " + s.grade + ", Email: " + s.email
  }

  /** Exactly which lines parse to a given record: its stored line followed by
      any number of commas (trailing empty pieces vanish), and only when the
      record is serialisable. */
  lemma ParseExactly(line: string, s: Student)
    ensures FromFileString(line) == Some(s)
        <==> Serialisable(s) && exists k: nat :: line == ToFileString(s) + Repeat(Comma, k)
  {
    if FromFileString(line) == Some(s) {
      SplitShape(line, Comma);
      assert Split(line, Comma) == Fields(s);
    }
    if Serialisable(s) && exists k: nat :: line == ToFileString(s) + Repeat(Comma, k) {
      var k: nat :| line == ToFileString(s) + Repeat(Comma, k);
      SplitOfJoin(Fields(s), k, Comma);
    }
  }

  /** The file round trip holds exactly for serialisable records. */
  lemma RoundTrip(s: Student)
    ensures FromFileString(ToFileString(s)) == Some(s) <==> Serialisable(s)
  {
    ParseExactly(ToFileString(s), s);
    assert ToFileString(s) + Repeat(Comma, 0) == ToFileString(s);
  }
}

=== FILE: student_store.dfy ===
/** The record manager: an insertion-ordered list of records mirrored to the
    backing file after every change, and loaded from it when created. */
module StudentStore {
  import opened Wrappers
  import opened Seqs
  import opened JavaStrings
  import opened TextFile
  import opened StudentRecord

  /** How a rewrite of the backing file ended: written with the platform's line
      separator, or failed (the exception is logged and the old content stays). */
  datatype WriteOutcome = Written(sep: LineSeparator) | WriteFailed

  /** The in-memory list and the backing file's content (None when there is no file). */
  datatype Manager = Manager(students: seq<Student>, file: Option<string>)

  /** The outcome of a removal: whether a record went, and the manager after it. */
  datatype Removal = Removal(removed: bool, manager: Manager)

  predicate AllStorable(students: seq<Student>)
  {
    forall i :: 0 <= i < |students| ==> Storable(students[i])
  }

  /** A lookup key matches a record when it equals its roll ignoring case. */
  predicate Matches(s: Student, roll: string)
  {
    EqualsIgnoreCase(s.roll, roll)
  }

  // ---------------------------------------------------------------- saving

  /** One stored line per record, in list order; each serialisable record's
      line parses back to that record. */
  function FileLines(students: seq<Student>): (lines: seq<string>)
    ensures |lines| == |students|
    ensures forall i :: 0 <= i < |students| && Serialisable(students[i])
                        ==> FromFileString(lines[i]) == Some(students[i])
  {
    var lines := seq(|students|, i requires 0 <= i < |students| => ToFileString(students[i]));
    assert forall i :: 0 <= i < |students| && Serialisable(students[i])
                       ==> FromFileString(lines[i]) == Some(students[i]) by {
      forall i | 0 <= i < |students| && Serialisable(students[i])
        ensures FromFileString(lines[i]) == Some(students[i])
      {
        RoundTrip(students[i]);
      }
    }
    lines
  }

  /** The whole file content a save leaves behind; a Scanner reads it back as
      the stored lines, one per record, when every record is storable. */
  function SaveText(students: seq<Student>, sep: LineSeparator): (text: string)
    ensures AllStorable(students) ==> ReadLines(text) == FileLines(students)
  {
    var lines := FileLines(students);
    assert AllStorable(students) ==> ReadLines(WriteLines(lines, sep)) == lines by {
      if AllStorable(students) {
        forall k | 0 <= k < |lines| ensures NoLineBreak(lines[k]) {
          FileLineIsOneLine(students[k]);
        }
        ReadWriteLines(lines, sep);
      }
    }
    WriteLines(lines, sep)
  }

  /** The file after a save of `students`: rewritten, or untouched when the write fails. */
  function Persist(students: seq<Student>, file: Option<string>, w: WriteOutcome): (r: Option<string>)
    ensures w.WriteFailed? ==> r == file
    ensures w.Written? && AllStorable(students) ==> Load(r) == students
  {
    match w
    case Written(sep) =>
      assert AllStorable(students) ==> Load(Some(SaveText(students, sep))) == students by {
        if AllStorable(students) {
          SaveThenLoad(students, sep);
        }
      }
      Some(SaveText(students, sep))
    case WriteFailed => file
  }

  // --------------------------------------------------------------- loading

  /** The records of the lines that parse, in line order; the others are dropped. */
  function LoadLines(lines: seq<string>): (r: seq<Student>)
    ensures |r| <= |lines|
    ensures forall x :: x in r ==> exists l :: l in lines && FromFileString(l) == Some(x)
    ensures forall l :: l in lines && FromFileString(l).Some? ==> FromFileString(l).value in r
    ensures forall i :: 0 <= i < |r| ==> Serialisable(r[i])
    decreases |lines|
  {
    if |lines| == 0 then []
    else
      var rest := LoadLines(lines[1..]);
      assert forall l :: l in lines[1..] ==> l in lines;
      match FromFileString(lines[0])
      case Some(s) => [s] + rest
      case None => rest
  }

  /** The records a load finds in the file; a missing file holds none. */
  function Load(file: Option<string>): (r: seq<Student>)
    ensures file.None? ==> r == []
    ensures file.Some? ==> |r| <= |file.value|
    ensures forall i :: 0 <= i < |r| ==> Serialisable(r[i])
  {
    match file
    case None => []
    case Some(text) => LoadLines(ReadLines(text))
  }

  /** Creating the manager loads the backing file. */
  function Open(file: Option<string>): (m: Manager)
    ensures file.None? ==> m.students == []
    ensures forall i :: 0 <= i < |m.students| ==> Serialisable(m.students[i])
  {
    Manager(Load(file), file)
  }

  /** The file, read back, gives exactly the in-memory list. */
  predicate InSync(m: Manager)
  {
    Load(m.file) == m.students
  }

  // ------------------------------------------------------------ operations

  /** Appends the record (no check that its roll is new) and saves. */
  function AddStudent(m: Manager, s: Student, w: WriteOutcome): (r: Manager)
    ensures |r.students| == |m.students| + 1
    ensures forall i :: 0 <= i < |m.students| ==> r.students[i] == m.students[i]
    ensures r.students[|m.students|] == s
    ensures w.Written? ==> r.file == Some(SaveText(r.students, w.sep))
    ensures w.WriteFailed? ==> r.file == m.file
  {
    var students := m.students + [s];
    Manager(students, Persist(students, m.file, w))
  }

  /** Position of the first record whose roll matches, or the list length. */
  function FirstMatch(students: seq<Student>, roll: string): (i: nat)
    ensures i <= |students|
    ensures i < |students| ==> Matches(students[i], roll)
    ensures forall j :: 0 <= j < i ==> !Matches(students[j], roll)
  {
    FindFirst(students, (s: Student) => Matches(s, roll))
  }

  /** The first record, in list order, whose roll matches ignoring case. */
  function SearchStudent(m: Manager, roll: string): (r: Option<Student>)
    ensures r.None? <==> forall j :: 0 <= j < |m.students| ==> !Matches(m.students[j], roll)
    ensures r.Some? ==> exists i :: 0 <= i < |m.students| && m.students[i] == r.value
                                   && Matches(r.value, roll)
                                   && forall j :: 0 <= j < i ==> !Matches(m.students[j], roll)
  {
    var i := FirstMatch(m.students, roll);
    if i < |m.students| then Some(m.students[i]) else None
  }

  /** Removes the first record whose roll matches ignoring case and saves;
      when none matches nothing changes and nothing is written. */
  function RemoveStudent(m: Manager, roll: string, w: WriteOutcome): (r: Removal)
    ensures r.removed <==> exists j :: 0 <= j < |m.students| && Matches(m.students[j], roll)
    ensures !r.removed ==> r.manager == m
    ensures r.removed ==>
      exists i :: 0 <= i < |m.students| && Matches(m.students[i], roll)
                  && (forall j :: 0 <= j < i ==> !Matches(m.students[j], roll))
                  && r.manager.students == m.students[..i] + m.students[i + 1..]
    ensures r.removed ==> r.manager.file == Persist(r.manager.students, m.file, w)
  {
    var i := FirstMatch(m.students, roll);
    if i < |m.students| then
      var students := m.students[..i] + m.students[i + 1..];
      Removal(true, Manager(students, Persist(students, m.file, w)))
    else
      Removal(false, m)
  }

  /** The current list, in insertion order. A search for a listed record's roll
      finds that record or one listed before it (rolls may repeat). */
  function AllStudents(m: Manager): (r: seq<Student>)
    ensures |r| == |m.students|
    ensures forall i :: 0 <= i < |r| ==>
      SearchStudent(m, r[i].roll).Some? && SearchStudent(m, r[i].roll).value in m.students[..i + 1]
  {
    forall i | 0 <= i < |m.students|
      ensures SearchStudent(m, m.students[i].roll).Some?
      ensures SearchStudent(m, m.students[i].roll).value in m.students[..i + 1]
    {
      SearchOwnRoll(m, i);
    }
    m.students
  }

  /** Searching for the roll of the record at position `i` finds a record at or before `i`. */
  lemma SearchOwnRoll(m: Manager, i: nat)
    requires i < |m.students|
    ensures SearchStudent(m, m.students[i].roll).Some?
    ensures SearchStudent(m, m.students[i].roll).value in m.students[..i + 1]
  {
    var roll := m.students[i].roll;
    assert Matches(m.students[i], roll);
    var j := FirstMatch(m.students, roll);
    assert j <= i;
    assert SearchStudent(m, roll) == Some(m.students[j]);
    assert m.students[..i + 1][j] == m.students[j];
  }

  /** The text of the record view: one display line per record, or a notice when there are none. */
  function DisplayAll(students: seq<Student>): (text: string)
    ensures |students| == 0 ==> text == "No students found."
    ensures |students| > 0 ==> Render(students[0]) + "\n" <= text
  {
    if |students| == 0 then "No students found."
    else
      // The view appends a literal "\n" after each record on every platform,
      // so LF here is that literal, not the platform line separator.
      var lines := DisplayLines(students);
      assert WriteLines(lines, LF) == lines[0] + Terminator(LF) + WriteLines(lines[1..], LF);
      WriteLines(lines, LF)
  }

  /** The display line of each record, in list order. */
  function DisplayLines(students: seq<Student>): seq<string>
  {
    seq(|students|, i requires 0 <= i < |students| => Render(students[i]))
  }

  /** One record is shown as its display line followed by a newline. */
  lemma DisplayAllSingle(s: Student)
    ensures DisplayAll([s]) == Render(s) + "\n"
  {
    assert DisplayLines([s])[1..] == [];
  }

  /** The view of a non-empty list is the views of its non-empty parts, one after the other. */
  lemma DisplayAllAppend(a: seq<Student>, b: seq<Student>)
    requires |a| > 0 && |b| > 0
    ensures DisplayAll(a + b) == DisplayAll(a) + DisplayAll(b)
  {
    assert DisplayLines(a + b) == DisplayLines(a) + DisplayLines(b);
    WriteLinesAppend(DisplayLines(a), DisplayLines(b), LF);
  }

  // ---------------------------------------------------------------- lemmas

  /** The stored line of a storable record is a single line. */
  lemma FileLineIsOneLine(s: Student)
    requires Storable(s)
    ensures NoLineBreak(ToFileString(s))
  {
    var c := [Comma];
    assert NoLineBreak(c);
    assert Fields(s)[0] == s.name && Fields(s)[1] == s.roll;
    assert Fields(s)[2] == s.grade && Fields(s)[3] == s.email;
    NoLineBreakAppend(s.name, c);
    NoLineBreakAppend(s.name + c, s.roll);
    NoLineBreakAppend(s.name + c + s.roll, c);
    NoLineBreakAppend(s.name + c + s.roll + c, s.grade);
    NoLineBreakAppend(s.name + c + s.roll + c + s.grade, c);
    NoLineBreakAppend(s.name + c + s.roll + c + s.grade + c, s.email);
  }

  /** Loading reads the lines one after another. */
  lemma {:induction false} LoadLinesAppend(a: seq<string>, b: seq<string>)
    ensures LoadLines(a + b) == LoadLines(a) + LoadLines(b)
    decreases |a|
  {
    if |a| > 0 {
      assert (a + b)[1..] == a[1..] + b;
      LoadLinesAppend(a[1..], b);
    } else {
      assert a + b == b;
    }
  }

  /** Parsing back the stored lines of serialisable records gives the records. */
  lemma {:induction false} LoadFileLines(students: seq<Student>)
    requires forall i :: 0 <= i < |students| ==> Serialisable(students[i])
    ensures LoadLines(FileLines(students)) == students
    decreases |students|
  {
    if |students| > 0 {
      var lines := FileLines(students);
      assert lines[1..] == FileLines(students[1..]);
      LoadFileLines(students[1..]);
      LoadLinesHead(lines, students[0]);
      assert students == [students[0]] + students[1..];
    }
  }

  /** A first line that parses contributes its record first. */
  lemma LoadLinesHead(lines: seq<string>, s: Student)
    requires |lines| > 0 && FromFileString(lines[0]) == Some(s)
    ensures LoadLines(lines) == [s] + LoadLines(lines[1..])
  {
  }

  /** Save then load: a list of storable records survives the file, in order,
      whichever line separator the platform uses. */
  lemma SaveThenLoad(students: seq<Student>, sep: LineSeparator)
    requires AllStorable(students)
    ensures Load(Some(SaveText(students, sep))) == students
  {
    var lines := FileLines(students);
    forall k | 0 <= k < |lines| ensures NoLineBreak(lines[k]) {
      FileLineIsOneLine(students[k]);
    }
    ReadWriteLines(lines, sep);
    LoadFileLines(students);
  }

  /** A successful save after an add leaves the file in step with the list. */
  lemma AddKeepsSync(m: Manager, s: Student, sep: LineSeparator)
    requires AllStorable(m.students) && Storable(s)
    ensures InSync(AddStudent(m, s, Written(sep)))
  {
  }

  /** A failed save after an add leaves the file holding the old list. */
  lemma AddWriteFailedDiverges(m: Manager, s: Student)
    requires InSync(m)
    ensures Load(AddStudent(m, s, WriteFailed).file) == m.students
    ensures !InSync(AddStudent(m, s, WriteFailed))
  {
    assert |AddStudent(m, s, WriteFailed).students| == |m.students| + 1;
  }

  /** A successful save after a removal leaves the file in step with the list. */
  lemma RemoveKeepsSync(m: Manager, roll: string, sep: LineSeparator)
    requires InSync(m) && AllStorable(m.students)
    ensures InSync(RemoveStudent(m, roll, Written(sep)).manager)
  {
  }

  /** Searching after an add finds an earlier match first, otherwise the added
      record when its roll matches. */
  lemma AddThenSearch(m: Manager, s: Student, w: WriteOutcome, roll: string)
    ensures SearchStudent(AddStudent(m, s, w), roll)
         == if SearchStudent(m, roll).Some? then SearchStudent(m, roll)
            else if Matches(s, roll) then Some(s) else None
  {
    var r := AddStudent(m, s, w);
    var i := FirstMatch(m.students, roll);
    var i' := FirstMatch(r.students, roll);
    if i < |m.students| {
      assert r.students[i] == m.students[i];
      assert i' == i;
    } else {
      assert forall j :: 0 <= j < |m.students| ==> r.students[j] == m.students[j];
      assert i' >= |m.students|;
    }
  }

  /** Removing the roll of a record just added, when no earlier record had
      that roll, restores the list. */
  lemma RemoveUndoesAdd(m: Manager, s: Student, w: WriteOutcome, w': WriteOutcome)
    requires SearchStudent(m, s.roll).None?
    ensures RemoveStudent(AddStudent(m, s, w), s.roll, w').removed
    ensures RemoveStudent(AddStudent(m, s, w), s.roll, w').manager.students == m.students
  {
    var a := AddStudent(m, s, w);
    assert a.students == m.students + [s];
    assert Matches(s, s.roll);
    assert forall j :: 0 <= j < |m.students| ==> a.students[j] == m.students[j];
    var i := FirstMatch(a.students, s.roll);
    assert i == |m.students|;
    assert a.students[..i] == m.students;
  }

  /** The list before a successful removal is the list after it with the
      first matching record put back at its position. */
  lemma RemoveSplitsAtFirstMatch(m: Manager, roll: string, w: WriteOutcome)
    requires FirstMatch(m.students, roll) < |m.students|
    ensures RemoveStudent(m, roll, w).removed
    ensures m.students == RemoveStudent(m, roll, w).manager.students[..FirstMatch(m.students, roll)]
                          + [m.students[FirstMatch(m.students, roll)]]
                          + RemoveStudent(m, roll, w).manager.students[FirstMatch(m.students, roll)..]
  {
    var i := FirstMatch(m.students, roll);
    var r := RemoveStudent(m, roll, w);
    assert r.removed && r.manager.students == m.students[..i] + m.students[i + 1..];
    PutBack(m.students, i);
  }

  /** Deleting position `i` and inserting the deleted element there again restores the list. */
  lemma PutBack(s: seq<Student>, i: nat)
    requires i < |s|
    ensures s == (s[..i] + s[i + 1..])[..i] + [s[i]] + (s[..i] + s[i + 1..])[i..]
  {
    var rest := s[..i] + s[i + 1..];
    assert rest[..i] == s[..i];
    assert rest[i..] == s[i + 1..];
    assert s == s[..i] + [s[i]] + s[i + 1..];
  }

  /** Remove takes out exactly the record search reports, and reports success
      exactly when search finds one. */
  lemma RemoveTakesSearched(m: Manager, roll: string, w: WriteOutcome)
    ensures RemoveStudent(m, roll, w).removed <==> SearchStudent(m, roll).Some?
    ensures RemoveStudent(m, roll, w).removed ==>
      exists i :: 0 <= i <= |RemoveStudent(m, roll, w).manager.students|
        && m.students == RemoveStudent(m, roll, w).manager.students[..i]
                         + [SearchStudent(m, roll).value]
                         + RemoveStudent(m, roll, w).manager.students[i..]
  {
    var i := FirstMatch(m.students, roll);
    if i < |m.students| {
      RemoveSplitsAtFirstMatch(m, roll, w);
      assert SearchStudent(m, roll) == Some(m.students[i]);
      assert i <= |RemoveStudent(m, roll, w).manager.students|;
    }
  }

  /** The record view shows one line per record, in list order, when no field holds a line break. */
  lemma DisplayAllLines(students: seq<Student>)
    requires |students| > 0
    requires forall i, k :: 0 <= i < |students| && 0 <= k < 4 ==> NoLineBreak(Fields(students[i])[k])
    ensures ReadLines(DisplayAll(students)) == DisplayLines(students)
  {
    var lines := DisplayLines(students);
    ReadWriteLines(lines, LF);
  }
}

=== FILE: text_file.dfy ===
/** The backing file as text: what PrintWriter.println writes line by line, and
    what a Scanner hands back from successive nextLine calls. */
module TextFile {
  import opened Seqs

  /** The platform line separator println appends. */
  datatype LineSeparator = LF | CRLF

  function Terminator(sep: LineSeparator): string
  {
    match sep
    case LF => "\n"
    case CRLF => "\r\n"
  }

  /** The characters Scanner treats as ending a line ("\r\n" counts as one terminator). */
  predicate IsLineBreak(c: char)
  {
    c == '\n' || c == '\r' || c == '\U{2028}' || c == '\U{2029}' || c == '\U{85}'
  }

  predicate NoLineBreak(s: string)
  {
    forall k :: 0 <= k < |s| ==> !IsLineBreak(s[k])
  }

  lemma NoLineBreakAppend(a: string, b: string)
    ensures NoLineBreak(a + b) <==> NoLineBreak(a) && NoLineBreak(b)
  {
    if NoLineBreak(a) && NoLineBreak(b) {
      forall k | 0 <= k < |a + b| ensures !IsLineBreak((a + b)[k]) {
        if k >= |a| { assert (a + b)[k] == b[k - |a|]; }
      }
    }
    if NoLineBreak(a + b) {
      forall k | 0 <= k < |a| ensures !IsLineBreak(a[k]) {
        assert (a + b)[k] == a[k];
      }
      forall k | 0 <= k < |b| ensures !IsLineBreak(b[k]) {
        assert (a + b)[|a| + k] == b[k];
      }
    }
  }

  /** The text left by println-ing each line in order. */
  function WriteLines(lines: seq<string>, sep: LineSeparator): (text: string)
    ensures |lines| <= |text|
    ensures |text| == 0 <==> |lines| == 0
    decreases |lines|
  {
    if |lines| == 0 then ""
    else lines[0] + Terminator(sep) + WriteLines(lines[1..], sep)
  }

  /** Printing two blocks of lines leaves the first block's text followed by the second's. */
  lemma {:induction false} WriteLinesAppend(a: seq<string>, b: seq<string>, sep: LineSeparator)
    ensures WriteLines(a + b, sep) == WriteLines(a, sep) + WriteLines(b, sep)
    decreases |a|
  {
    if |a| == 0 {
      assert a + b == b;
    } else {
      assert (a + b)[1..] == a[1..] + b;
      WriteLinesAppend(a[1..], b, sep);
    }
  }

  /** Length of the terminator starting at `i`: two for "\r\n", one otherwise. */
  function TerminatorLength(text: string, i: nat): (n: nat)
    requires i < |text| && IsLineBreak(text[i])
    ensures 1 <= n && i + n <= |text|
  {
    if text[i] == '\r' && i + 1 < |text| && text[i + 1] == '\n' then 2 else 1
  }

  /** The lines a Scanner yields while hasNextLine holds: the text up to each
      terminator, plus the unterminated remainder when it is non-empty. */
  function ReadLines(text: string): (lines: seq<string>)
    ensures forall k :: 0 <= k < |lines| ==> NoLineBreak(lines[k])
    ensures |lines| <= |text|
    decreases |text|
  {
    if |text| == 0 then []
    else
      var i := FindFirst(text, IsLineBreak);
      if i == |text| then [text]
      else [text[..i]] + ReadLines(text[i + TerminatorLength(text, i)..])
  }

  /** Text without any terminator is one last, unterminated line, or no line at all when empty. */
  lemma ReadLinesLast(text: string)
    requires NoLineBreak(text)
    ensures ReadLines(text) == if |text| == 0 then [] else [text]
  {
    if |text| > 0 {
      assert FindFirst(text, IsLineBreak) == |text|;
    }
  }

  /** A single-character terminator (`\n`, a `\r` not followed by `\n`, U+2028,
      U+2029 or U+0085) ends the line before it, blank lines included. */
  lemma ReadLinesBreak(line: string, c: char, rest: string)
    requires NoLineBreak(line) && IsLineBreak(c)
    requires !(c == '\r' && |rest| > 0 && rest[0] == '\n')
    ensures ReadLines(line + [c] + rest) == [line] + ReadLines(rest)
  {
    var text := line + [c] + rest;
    var i := |line|;
    FindFirstAt(line, c, rest, IsLineBreak);
    assert text[..i] == line;
    assert text[i] == c;
    assert TerminatorLength(text, i) == 1 by {
      if c == '\r' && i + 1 < |text| {
        assert text[i + 1] == rest[0];
      }
    }
    assert text[i + 1..] == rest;
  }

  /** "\r\n" is one terminator: it ends the line before it and no blank line follows. */
  lemma ReadLinesCrLf(line: string, rest: string)
    requires NoLineBreak(line)
    ensures ReadLines(line + "\r\n" + rest) == [line] + ReadLines(rest)
  {
    var text := line + "\r\n" + rest;
    var i := |line|;
    var after := "\n" + rest;
    assert text == line + ['\r'] + after;
    FindFirstAt(line, '\r', after, IsLineBreak);
    assert text[..i] == line;
    assert text[i] == '\r' && text[i + 1] == '\n';
    assert TerminatorLength(text, i) == 2;
    assert text[i + 2..] == rest;
  }

  /** One println'd line is read back as that line, and reading continues after it. */
  lemma ReadLinesCons(line: string, sep: LineSeparator, rest: string)
    requires NoLineBreak(line)
    ensures ReadLines(line + Terminator(sep) + rest) == [line] + ReadLines(rest)
  {
    match sep
    case LF => ReadLinesBreak(line, '\n', rest);
    case CRLF => ReadLinesCrLf(line, rest);
  }

  /** Lines free of line breaks survive a println / nextLine round trip, on either platform. */
  lemma {:induction false} ReadWriteLines(lines: seq<string>, sep: LineSeparator)
    requires forall k :: 0 <= k < |lines| ==> NoLineBreak(lines[k])
    ensures ReadLines(WriteLines(lines, sep)) == lines
    decreases |lines|
  {
    if |lines| > 0 {
      ReadLinesCons(lines[0], sep, WriteLines(lines[1..], sep));
      ReadWriteLines(lines[1..], sep);
      assert lines == [lines[0]] + lines[1..];
    }
  }
}

=== FILE: wrappers.dfy ===
/** The optional value the Java code expresses with a possibly-null reference. */
module Wrappers {

  datatype Option<+T> = None | Some(value: T)
}
